=== FILE: README.md ===
# CSLAutomatedTestAPI bookkeeping, in Dafny

CSLAutomatedTestAPI runs a battery of checks against a CUDA random-number and
statistics library (CudaSharper), several times over, and reports pass/fail
verdicts and timings. All numerical work happens in the library; this model
covers the harness's own logic:

- **records** (`CudaTestRecords`): one check, with a name, the tested value
  rendered as text, a pass flag, the GPU call's error code and its GPU time;
  "GPU returned success" means the code is `Success`;
- **record collections** (`CudaTestRecordCollections`): one run of the battery.
  It passes unless some record failed both its own check and its GPU call;
- **result collections** (`CudaTestResultCollections`): many runs, split into
  passed and failed with counts and an all-passed flag. The session and GPU
  times have setters that lower two process-wide best times (the static
  `BestTime` and `GpuBestTime`). Here these are one shared `BestTimes` object,
  whose ghost histories record every value ever assigned. The constructors
  accept any `BestTimes` object, so callers must pass the single process-wide
  instance to every collection and device test. The running-minimum results
  hold per object;
- **call wrappers** (`CudaTestResults`): the random-number check counts
  adjacent equal elements, and passes when their fraction is below `0.05f`.
  The statistics check applies a caller-supplied predicate to the call's result;
- **the device runner** (`CudaDeviceTests`): it selects an implementation
  from the parallelism setting, initializes once, and runs the battery
  `NumOfTests` times in sequence. It collects the runs in call order, reports
  progress `i / NumOfTests` after each call, and sums the runs' GPU times.
  For the parallel implementation, only the final step is modelled: it
  divides the summed session time and the GPU sum by a thread estimate.
  Long division there can throw `DivideByZeroException` (`LongDivide`);
- **LINQ** (`Enumerables`): `Any`, `Where`, checked `Sum` over longs, the list
  indexer and the `foreach`/`yield return` enumerator, each as the .NET
  library defines it.

External inputs are parameters:

- the battery `TestCsl` is a function from the session parameters and the
  call's index to the record collection that call returns, or to the
  exception it throws;
- each library call is a function argument, as it is in the source;
- every `Stopwatch` reading is an argument;
- `ToString` is a rendering function supplied by the caller.

Integer widths are explicit. `long` and `int` are subset types of `int`. The
GPU-time `Sum` is checked, as .NET's `Enumerable.Sum` over longs is: it throws
`OverflowException` once a partial sum leaves the long range.

The sequential runner builds its result with a C# object initializer. That
means the session-time setter (which may lower `BestTime`) runs before the GPU
times are summed. The model keeps that order, so an overflowing sum leaves
`BestTime` lowered and `GpuBestTime` untouched.

The threshold `0.05f` is the float nearest 0.05, widened to double: exactly
13421773 / 2^28, slightly above 1/20. So a result with exactly 5% adjacent
duplicates passes the "<5% duplicates" check (`UniquenessPassesIff`). An empty
result never passes, because 0.0 / 0 is NaN and every comparison with NaN is
false.

## Model

| member | source | states |
|---|---|---|
| `CudaTestRecords.New` | CSLAutomatedTestAPI/CudaTestRecord.cs:18-30 | the factory stores name, pass flag, error code and GPU time as given and the value as its `ToString`; the record's GPU-success flag holds exactly when the code is `Success` |
| `CudaTestRecordCollections.PassedIffNoOutrightFailure` | CSLAutomatedTestAPI/CudaTestRecordCollection.cs:20-27 | a run passes iff every record passed its own check or had its GPU call succeed; a run with no records passes |
| `CudaTestRecordCollections.GpuSuccessNeverFailsRun` | CSLAutomatedTestAPI/CudaTestRecordCollection.cs:26 | inserting a record whose GPU call succeeded, anywhere, never changes the run's verdict, even if its own check failed |
| `CudaTestRecordCollections.OutrightFailureFailsRun` | CSLAutomatedTestAPI/CudaTestRecordCollection.cs:26 | one record failing both its check and its GPU call fails the run |
| `CudaTestRecordCollections.CudaTestRecordCollection.Count` | CSLAutomatedTestAPI/CudaTestRecordCollection.cs:12 | `Count` is the number of supplied records; it is read from the list on every call |
| `CudaTestRecordCollections.CudaTestRecordCollection.Item` | CSLAutomatedTestAPI/CudaTestRecordCollection.cs:11-12 | `this[i]` is the i-th supplied record for `0 <= i < Count`, and throws otherwise |
| `CudaTestRecords.CudaTestRecord.GpuElapsedMilliseconds` | CSLAutomatedTestAPI/CudaTestRecord.cs:15 | a record's GPU time is the one in the metrics it was given |
| `CudaTestRecordCollections.CudaTestRecordCollection.GpuElapsedMilliseconds` | CSLAutomatedTestAPI/CudaTestRecordCollection.cs:16-17 | a run's GPU time is the one in the metrics supplied with it, not a sum over its records |
| `CudaTestRecordCollections.GpuTimeIgnoresRecords` | CSLAutomatedTestAPI/CudaTestRecordCollection.cs:16-17 | two runs with the same metrics report the same GPU time, whatever records they hold: the time is not a sum over the records |
| `CudaTestRecordCollections.CudaTestRecordCollection.GetEnumerator` | CSLAutomatedTestAPI/CudaTestRecordCollection.cs:29-35 | enumeration yields `Count` records, the i-th being `this[i]` |
| `Enumerables.AnyIffExists` | CSLAutomatedTestAPI/CudaTestRecordCollection.cs:26 | LINQ `Any` is true iff some element satisfies the predicate |
| `Enumerables.WhereMembers` | CSLAutomatedTestAPI/CudaTestResultCollection.cs:101-103 | an element is in a `Where` result iff it is in the input and satisfies the predicate |
| `Enumerables.WhereAppend` | CSLAutomatedTestAPI/CudaTestResultCollection.cs:106-108 | `Where` distributes over concatenation, so it keeps the input's order |
| `Enumerables.WhereComplement` | CSLAutomatedTestAPI/CudaTestResultCollection.cs:101-109 | the results of filtering with a predicate and with its negation have lengths adding up to the input's |
| `Enumerables.WhereEmptyIffNone` | CSLAutomatedTestAPI/CudaTestResultCollection.cs:109-111 | a `Where` result is empty iff no element satisfies the predicate |
| `Enumerables.CheckedSumCorrect` | CSLAutomatedTestAPI/ICudaDeviceTest.cs:149 | a checked long sum that succeeds equals the mathematical sum, and a failing one throws `OverflowException`; over non-negative times it throws exactly when the sum exceeds `long.MaxValue` |
| `Enumerables.ElementAt` | CSLAutomatedTestAPI/CudaTestResultCollection.cs:12 | the list indexer returns the i-th element for an index in range and throws `ArgumentOutOfRange` otherwise |
| `Enumerables.Enumerate` | CSLAutomatedTestAPI/CudaTestResultCollection.cs:115-121 | a `foreach`/`yield return` enumerator over a stored list yields exactly the list, in order |
| `CudaTestResultCollections.RunningMinIsMinimum` | CSLAutomatedTestAPI/CudaTestResultCollection.cs:24-57 | a best time is at most `long.MaxValue` and at most every value ever assigned, and equals `long.MaxValue` or one of those values |
| `CudaTestResultCollections.RunningMinNeverIncreases` | CSLAutomatedTestAPI/CudaTestResultCollection.cs:52-55 | later assignments can only lower a best time |
| `CudaTestResultCollections.BestTimes.constructor` | CSLAutomatedTestAPI/CudaTestResultCollection.cs:24 | both best times start at `long.MaxValue` with nothing assigned yet |
| `CudaTestResultCollections.PartitionOfRuns` | CSLAutomatedTestAPI/CudaTestResultCollection.cs:101-112 | the passed and failed queries hold exactly the passing and the failing runs, their counts add up to the number of runs, and no run fails iff every run passed |
| `CudaTestResultCollections.PartitionKeepsOrder` | CSLAutomatedTestAPI/CudaTestResultCollection.cs:101-108 | both queries split a concatenation into the concatenation of the splits, so each keeps the supplied order |
| `CudaTestResultCollections.CudaTestResultCollection.constructor` | CSLAutomatedTestAPI/CudaTestResultCollection.cs:96-113 | records the runs and parameters; `NumOfPasses + NumOfFails == Count == ` number of runs; `AllTestsPassed` iff `NumOfFails == 0` iff every run passed |
| `CudaTestResultCollections.CudaTestResultCollection.SetTotalElapsedMilliseconds` | CSLAutomatedTestAPI/CudaTestResultCollection.cs:43-58 | the getter then returns the value, `BestTime` becomes `min(old BestTime, value)`, and it remains the minimum of all values ever assigned |
| `CudaTestResultCollections.CudaTestResultCollection.SetGpuElapsedMilliseconds` | CSLAutomatedTestAPI/CudaTestResultCollection.cs:79-94 | the same rule for the GPU time and `GpuBestTime`, leaving `BestTime` alone |
| `CudaTestResultCollections.CudaTestResultCollection.Item` | CSLAutomatedTestAPI/CudaTestResultCollection.cs:12 | `this[i]` is the i-th supplied run for an index in range, and throws otherwise |
| `CudaTestResultCollections.CudaTestResultCollection.GetEnumerator` | CSLAutomatedTestAPI/CudaTestResultCollection.cs:115-121 | enumeration yields every supplied run, the i-th being `this[i]` |
| `CudaTestResults.DuplicatesBelowCounts` | CSLAutomatedTestAPI/ICudaTestResult.cs:38-45 | the duplicate counter equals the number of indices `i` below the bound with `Result[i] == Result[i + 1]`, and is at most the bound |
| `CudaTestResults.AdjacentDuplicatesBound` | CSLAutomatedTestAPI/ICudaTestResult.cs:47-48 | no duplicates for fewer than two elements, otherwise at most `Length - 1`, the number of adjacent equal pairs |
| `CudaTestResults.ConstantDuplicates` | CSLAutomatedTestAPI/ICudaTestResult.cs:38-45 | an array of one repeated value has a duplicate at every pair |
| `CudaTestResults.UniquenessPassesIff` | CSLAutomatedTestAPI/ICudaTestResult.cs:49-54 | the check passes iff the array is non-empty and its duplicate fraction is below `0.05f`; an empty array never passes; at most 5% duplicates always passes |
| `CudaTestResults.ConstantResultFails` | CSLAutomatedTestAPI/ICudaTestResult.cs:49-54 | a generator stuck on one value fails once it returns two or more numbers |
| `CudaTestResults.NoRepeatsPasses` | CSLAutomatedTestAPI/ICudaTestResult.cs:38-54 | a non-empty result with no value repeated back to back passes |
| `CudaTestResults.NewCudaTestResultCuRand` | CSLAutomatedTestAPI/ICudaTestResult.cs:21-57 | calls the generator once with `range` and keeps its error and result; the record is named `name + "<5% duplicates"`, shows the uniqueness value, carries the call's error code and GPU time, and passes iff the uniqueness check does |
| `CudaTestResults.NewCudaTestResultcuStats` | CSLAutomatedTestAPI/ICudaTestResult.cs:67-83 | calls the library once with `data`; the record keeps the name, passes iff `successTest(result)`, and carries the call's error code and GPU time |
| `CudaTestResults.NewCudaTestResultcuStatsPair` | CSLAutomatedTestAPI/ICudaTestResult.cs:85-101 | the same with `(data1, data2)` |
| `CudaTestResults.CuStatsPairIsSingle` | CSLAutomatedTestAPI/ICudaTestResult.cs:67-101 | the two-array constructor is the one-array constructor over the call with its second argument fixed |
| `CudaTypes.LongDivide` | CSLAutomatedTestAPI/ICudaDeviceTest.cs:122-123 | C# `long` division: a zero divisor throws `DivideByZeroException`, `long.MinValue / -1` throws `OverflowException`, and otherwise the quotient rounds toward zero (the remainder is smaller than the divisor and has the dividend's sign) |
| `CudaDeviceTests.ParallelGpuTime` | CSLAutomatedTestAPI/ICudaDeviceTest.cs:123 | the parallel GPU time throws `OverflowException` when the checked sum of the runs' GPU times does, and is otherwise that sum divided by the thread estimate |
| `CudaDeviceTests.CudaErrorCodeTest` | CSLAutomatedTestAPI/ICudaDeviceTest.cs:83-86 | true iff the code is `Success`, agreeing with every record's GPU-success flag for that code |
| `CudaDeviceTests.ProgressReportsRise` | CSLAutomatedTestAPI/ICudaDeviceTest.cs:138-141 | the progress values start at 0, rise strictly with each call and never reach 1 |
| `CudaDeviceTests.CudaDeviceTest.constructor` | CSLAutomatedTestAPI/ICudaDeviceTest.cs:53-64 | stores the parameters and progress sink; the dispatch table sends `DoNotParallelizeTests` to the sequential and `DoParallelizeTests` to the parallel implementation; nothing has run yet |
| `CudaDeviceTests.CallsCompleted` | CSLAutomatedTestAPI/ICudaDeviceTest.cs:135-137 | the number of battery calls made before the first one that throws: every earlier call returned, and the call at that index threw, unless all calls returned |
| `CudaDeviceTests.SequentialRuns` | CSLAutomatedTestAPI/ICudaDeviceTest.cs:135-137 | when none of the first `k` calls threw, the list holds their `k` results in call order |
| `CudaDeviceTests.CudaDeviceTest.RunTestsInSequential` | CSLAutomatedTestAPI/ICudaDeviceTest.cs:128-152 | a battery call that throws ends the session: the exception propagates, both best times are untouched, and progress has been reported only for the earlier calls. Otherwise the battery runs exactly `max(NumOfTests, 0)` times, and the runs are kept in call order. Progress is reported only when a sink exists. The result records the parameters and the session time, and its GPU time is the checked sum of the runs' GPU times (overflow throws). Best times are updated by the setter rules |
| `CudaDeviceTests.CudaDeviceTest.InitializeCollection` | CSLAutomatedTestAPI/ICudaDeviceTest.cs:146-150 | the object initializer both runners end with: the collection holds the runs and parameters. `BestTime` is lowered by the session time first. Then either the GPU-time expression throws and `GpuBestTime` is untouched, or the GPU time is stored and `GpuBestTime` is lowered by it |
| `CudaDeviceTests.CudaDeviceTest.FinishParallelRun` | CSLAutomatedTestAPI/ICudaDeviceTest.cs:118-124 | the parallel result holds the runs and parameters. Its session time is the summed session time divided by the thread estimate, and its GPU time is the checked GPU sum divided by the estimate. A zero estimate throws `DivideByZeroException` before any best time changes. An overflowing sum throws after `BestTime` was lowered, leaving `GpuBestTime` alone |
| `CudaDeviceTests.CudaDeviceTest.Initialize` | CSLAutomatedTestAPI/ICudaDeviceTest.cs:71-81 | once initialized, later calls change nothing. Otherwise it runs the implementation the dispatch table selects and stores its result, with that implementation's effects on both best times, the stored times and the counts. A first sequential call reports a progress value after each battery call that returned (only when a sink exists); a later call reports nothing. If the implementation throws, the exception propagates and the object stays uninitialized. On the sequential path, an exception from a battery call leaves both best times untouched. If every battery call returned, the only exception is `OverflowException` from the GPU sum, thrown after `BestTime` was lowered |
| `CudaDeviceTests.CudaDeviceTest.GpuElapsedMilliseconds` | CSLAutomatedTestAPI/ICudaDeviceTest.cs:39 | the stored result's GPU time, or a null dereference before initialization |

## Left out

- `RunTestsInParallel` up to line 118: `Parallel.For`, `Interlocked`, its progress reports and the thread-count estimate rounded from wall-clock time in floating point. `FinishParallelRun` models the object initializer that follows it, at lines 120-124.
- `CudaDeviceTests.CudaDeviceTest.Initialize`: on the parallel path it takes three inputs as given: the runs in the bag's order, their summed session time, and the rounded thread estimate. It therefore does not relate the parallel runs to the battery's calls. It also does not capture a `(long)` cast of NaN or infinity when the wall-clock time is 0. Whatever long that cast yields is simply an input. The parallel path's progress reports are not part of its contract. Nor are battery exceptions inside `Parallel.For`, which the source would rethrow as an `AggregateException`.
- `CudaDeviceTests.ParallelGpuTime`: it sums the GPU times in the order of the list given to the collection, while the source enumerates the bag itself. The two orders can differ. Order matters for a checked partial-sum overflow only when some GPU time is negative.
- `lock` statements on `locker` and `_lock`: the model is sequential.
- The `Parallel.For` in the duplicate counter is a sequential loop over the same index range, counting the same pairs.
- `PercentageErrorCheck`: pure floating-point arithmetic used only by the batteries.
- `CudaTestResults.UniquenessPassesIff`: the quotient `duplicates / Length` is an exact rational here. The double rounding of that division is not modelled. It matters only within one part in 2^53 of the threshold.
- `CudaDeviceTests.ProgressReportsRise`: the progress values are exact rationals here, not doubles. Double rounding cannot reorder them or reach 1, since the steps are at least 1 / 2^31.
- `Stopwatch` readings: every elapsed time is an argument.
- The batteries `CudaDeviceTestFp32` and `CudaDeviceTestFp64`: they compose calls into CudaSharper. Their `TestCsl` is a function argument here, indexed by call number, that returns either a record collection or the exception the call throws (for instance `OverflowException` for a negative range, or `IndexOutOfRangeException` for a zero range in `CudaDeviceTestFp64`).
- `CudaTestString`: text formatting for humans.
- `CudaError`, `ICudaResult<T>` and `CudaDevice` belong to the external library. `CudaError` is a datatype with a distinguished `Success`.
- `CudaTestParameters`, `ICudaTestParameters` and `IGpuPerformanceMetrics` are folded into datatypes. `IProgressToCompletion` is unused by the source.
- Aliasing of the lists given to the collection constructors: C# keeps the caller's list by reference, while the model copies a value. If a caller mutated the list later, the effects would differ by collection:
  - `CudaTestRecordCollection`: `Count`, the indexer and the enumerator would change, because they read the list on every call. `Passed` would not, because it was computed once in the constructor.
  - `CudaTestResultCollection`: the indexer and the enumerator would change, and so would `PassedTests` and `FailedTests`, which are deferred LINQ queries over the list. `Count`, `NumOfPasses`, `NumOfFails` and `AllTestsPassed` would not, because they were computed once in the constructor.
- Element equality in the duplicate counter uses `Equals`. For floats, `NaN.Equals(NaN)` is true. The model uses the element type's equality.
- Null arguments and null library results throw `NullReferenceException` in the source. They are not modelled, except for `GpuElapsedMilliseconds` before initialization.
- `CudaTestMethod` is a virtual property that a subclass could override. The model keeps the base class's table.

=== FILE: cuda_device_test.dfy ===
/** The test runner for one device: it picks an implementation from the
    parallelism setting, runs the battery `NumOfTests` times, and keeps the
    resulting collection once. The battery itself (`TestCsl`, implemented by
    the FP32 and FP64 subclasses over the GPU library) is a parameter: the
    record collection its k-th call in a session returns, or the exception it
    throws. */
module CudaDeviceTests {
  import opened CudaTypes
  import opened Enumerables
  import opened CudaTestRecordCollections
  import opened CudaTestResultCollections

  /** The delegates the dispatch table can hold. */
  datatype CudaTestImplementation = SequentialImplementation | ParallelImplementation

  /** `CudaErrorCodeTest`: a library call passes the error-code check exactly
      when it reported `Success`, the same rule a record's `GpuReturnedSuccess` applies. */
  function CudaErrorCodeTest(error: CudaError): (passed: bool)
    ensures passed <==> error == Success
    ensures forall record: CudaTestRecords.CudaTestRecord ::
              record.errorCode == error ==> (record.GpuReturnedSuccess() <==> passed)
  {
    error == Success
  }

  /** How many times `for (int i = 0; i < NumOfTests; i++)` runs. */
  function NumberOfRuns(numOfTests: Int32): nat {
    if numOfTests > 0 then numOfTests else 0
  }

  /** The battery `TestCsl`: what its k-th call in a session returns, or the
      exception that call throws (a negative or zero `Range`, say). */
  type Battery = (CudaTestParameters, nat) -> Result<CudaTestRecordCollection>

  /** How many of the first `n` battery calls return before one throws: `n`
      when none throws, otherwise the index of the first call that throws. */
  function CallsCompleted(parameters: CudaTestParameters, testCsl: Battery, n: nat): (k: nat)
    ensures k <= n
    ensures forall j :: 0 <= j < k ==> testCsl(parameters, j).Ok?
    ensures k < n ==> testCsl(parameters, k).Throws?
  {
    if n == 0 then 0
    else
      var k := CallsCompleted(parameters, testCsl, n - 1);
      if k < n - 1 || testCsl(parameters, n - 1).Throws? then k else n
  }

  /** The runs of the first `k` calls, in call order, when none of them threw. */
  function SequentialRuns(parameters: CudaTestParameters, testCsl: Battery, k: nat): (runs: seq<CudaTestRecordCollection>)
    requires forall j :: 0 <= j < k ==> testCsl(parameters, j).Ok?
    ensures |runs| == k
    ensures forall j :: 0 <= j < k ==> testCsl(parameters, j) == Ok(runs[j])
  {
    seq(k, j requires 0 <= j < k => testCsl(parameters, j).value)
  }

  /** The GPU time of each run, as `Sum` reads them. */
  function GpuTimes(runs: seq<CudaTestRecordCollection>): seq<Long> {
    seq(|runs|, k requires 0 <= k < |runs| => runs[k].GpuElapsedMilliseconds())
  }

  /** The progress values a sequential session reports, one after each call:
      `(double)i / NumOfTests` for `i = 0 .. n - 1`. */
  function ProgressReports(n: nat): seq<real> {
    seq(n, i requires 0 <= i < n => i as real / n as real)
  }

  /** Progress starts at 0, rises strictly with every call, and never reaches 1. */
  lemma ProgressReportsRise(n: nat)
    ensures |ProgressReports(n)| == n
    ensures n > 0 ==> ProgressReports(n)[0] == 0.0
    ensures forall i, j :: 0 <= i < j < n ==> ProgressReports(n)[i] < ProgressReports(n)[j]
    ensures forall i :: 0 <= i < n ==> 0.0 <= ProgressReports(n)[i] < 1.0
  {
    var p := ProgressReports(n);
    forall i, j | 0 <= i < j < n
      ensures p[i] < p[j]
    {
      assert p[j] - p[i] == (j - i) as real / n as real;
    }
    forall i | 0 <= i < n
      ensures 0.0 <= p[i] < 1.0
    {
      assert p[i] * n as real == i as real;
    }
  }

  /** What the concurrent part of `RunTestsInParallel` hands to the object
      initializer: the runs in the order the bag lists them, the per-call
      session times added up, and the thread estimate rounded from that sum
      and the wall-clock time. */
  datatype ParallelRun = ParallelRun(runs: seq<CudaTestRecordCollection>, sessionTime: Long, threads: Long)

  /** `testResultsList.Sum(x => x.GpuElapsedMilliseconds) / threads`: the
      checked sum throws first, then the division. */
  function ParallelGpuTime(run: ParallelRun): (r: Result<Long>)
    ensures CheckedSum(GpuTimes(run.runs)).Throws? ==> r == Throws(Overflow)
    ensures CheckedSum(GpuTimes(run.runs)).Ok? ==>
              InLongRange(Sum(GpuTimes(run.runs))) && r == LongDivide(Sum(GpuTimes(run.runs)), run.threads)
  {
    CheckedSumCorrect(GpuTimes(run.runs));
    match CheckedSum(GpuTimes(run.runs))
    case Throws(e) => Throws(e)
    case Ok(total) => LongDivide(total, run.threads)
  }

  class CudaDeviceTest {
    const testParameters: CudaTestParameters
    const cudaTestMethod: map<CudaTestParallelism, CudaTestImplementation>
    /** Whether a progress sink was supplied (`Progression != null`). */
    const progression: bool
    /** The shared static best times of all result collections. */
    const bestTimes: BestTimes

    var results: CudaTestResultCollection?
    var isInitialized: bool

    ghost predicate Valid()
      reads this, bestTimes
    {
      && (forall mode :: mode in cudaTestMethod)
      && cudaTestMethod[DoNotParallelizeTests] == SequentialImplementation
      && cudaTestMethod[DoParallelizeTests] == ParallelImplementation
      && (isInitialized <==> results != null)
      && bestTimes.Valid()
    }

    /** `BestTime` after the session-time setter was given `time`, when its
        history was `before` and its value `best`. */
    ghost predicate SessionTimeAssigned(time: Long, before: seq<Long>, best: Long)
      reads bestTimes
    {
      && bestTimes.totalTimesAssigned == before + [time]
      && bestTimes.bestTime == Min(best, time)
    }

    /** `GpuBestTime` has not been assigned since its history was `before` and
        its value `best`. */
    ghost predicate GpuTimeUntouched(before: seq<Long>, best: Long)
      reads bestTimes
    {
      bestTimes.gpuTimesAssigned == before && bestTimes.gpuBestTime == best
    }

    /** `c` is a completed session's result: built from `runs` with
        `parameters`, sharing the best times, holding `sessionTime` and
        `gpuTime`, which the GPU setter added to a history that was `before`
        with a best time `best`. */
    ghost predicate Stores(c: CudaTestResultCollection, runs: seq<CudaTestRecordCollection>, parameters: CudaTestParameters,
                           sessionTime: Long, gpuTime: Long, before: seq<Long>, best: Long)
      reads c, bestTimes
    {
      && c.Built(runs, parameters, bestTimes)
      && c.testTime == sessionTime
      && c.gpuTestTime == gpuTime
      && bestTimes.gpuTimesAssigned == before + [gpuTime]
      && bestTimes.gpuBestTime == Min(best, gpuTime)
    }

    /** Stores the parameters and the progress sink and builds the dispatch
        table; the battery has not run yet. */
    constructor (parameters: CudaTestParameters, hasProgress: bool, bestTimes: BestTimes)
      requires bestTimes.Valid()
      ensures Valid()
      ensures testParameters == parameters && progression == hasProgress && this.bestTimes == bestTimes
      ensures !isInitialized && results == null
    {
      testParameters := parameters;
      cudaTestMethod := map[DoNotParallelizeTests := SequentialImplementation,
                            DoParallelizeTests := ParallelImplementation];
      progression := hasProgress;
      this.bestTimes := bestTimes;
      results := null;
      isInitialized := false;
      new;
      forall mode: CudaTestParallelism
        ensures mode in cudaTestMethod
      {
        match mode {
          case DoNotParallelizeTests =>
          case DoParallelizeTests =>
        }
      }
    }

    /** The object initializer both runners end with:
        `new CudaTestResultCollection(runs, parameters) { TotalElapsedMilliseconds = sessionTime,
        GpuElapsedMilliseconds = gpuTime }`. The session-time setter runs
        first; `gpuTime` is evaluated after it, so when that expression throws,
        `BestTime` is already lowered and `GpuBestTime` is untouched. */
    method InitializeCollection(runs: seq<CudaTestRecordCollection>, parameters: CudaTestParameters,
                                sessionTime: Long, gpuTime: Result<Long>)
      returns (outcome: Result<CudaTestResultCollection>)
      requires bestTimes.Valid()
      modifies bestTimes
      ensures bestTimes.Valid()
      ensures SessionTimeAssigned(sessionTime, old(bestTimes.totalTimesAssigned), old(bestTimes.bestTime))
      ensures outcome.Throws? <==> gpuTime.Throws?
      ensures outcome.Throws? ==>
                && outcome.exception == gpuTime.exception
                && GpuTimeUntouched(old(bestTimes.gpuTimesAssigned), old(bestTimes.gpuBestTime))
      ensures outcome.Ok? ==>
                && fresh(outcome.value)
                && Stores(outcome.value, runs, parameters, sessionTime, gpuTime.value,
                          old(bestTimes.gpuTimesAssigned), old(bestTimes.gpuBestTime))
    {
      var collection := new CudaTestResultCollection(runs, parameters, bestTimes);
      collection.SetTotalElapsedMilliseconds(sessionTime);
      if gpuTime.Throws? {
        outcome := Throws(gpuTime.exception);
        return;
      }
      collection.SetGpuElapsedMilliseconds(gpuTime.value);
      outcome := Ok(collection);
    }

    /** Runs the battery once per test, in order, reporting progress after each
        call, then builds the collection: the session time is stored first
        (lowering `BestTime`), then the GPU times are summed in checked
        arithmetic, which throws before `GpuBestTime` is touched. A battery
        call that throws ends the session at once: no collection is built and
        no best time changes. */
    method RunTestsInSequential(parameters: CudaTestParameters, testCsl: Battery, elapsed: ElapsedMs)
      returns (outcome: Result<CudaTestResultCollection>, reports: seq<real>)
      requires bestTimes.Valid()
      modifies bestTimes
      ensures bestTimes.Valid()
      ensures var n := NumberOfRuns(parameters.numOfTests);
              var k := CallsCompleted(parameters, testCsl, n);
              && reports == (if progression then ProgressReports(n)[..k] else [])
              && (k < n ==> outcome == Throws(testCsl(parameters, k).exception) && unchanged(bestTimes))
      ensures var n := NumberOfRuns(parameters.numOfTests);
              CallsCompleted(parameters, testCsl, n) == n ==>
                var runs := SequentialRuns(parameters, testCsl, n);
                && SessionTimeAssigned(elapsed, old(bestTimes.totalTimesAssigned), old(bestTimes.bestTime))
                && (outcome.Ok? <==> CheckedSum(GpuTimes(runs)).Ok?)
                && (outcome.Throws? ==>
                      && outcome.exception == Overflow
                      && GpuTimeUntouched(old(bestTimes.gpuTimesAssigned), old(bestTimes.gpuBestTime)))
                && (outcome.Ok? ==>
                      && fresh(outcome.value)
                      && outcome.value.count == n
                      && outcome.value.gpuTestTime == Sum(GpuTimes(runs))
                      && Stores(outcome.value, runs, parameters, elapsed, CheckedSum(GpuTimes(runs)).value,
                                old(bestTimes.gpuTimesAssigned), old(bestTimes.gpuBestTime)))
    {
      var runs: seq<CudaTestRecordCollection> := [];
      reports := [];
      ghost var n := NumberOfRuns(parameters.numOfTests);
      var i := 0;
      while i < parameters.numOfTests
        invariant 0 <= i <= n
        invariant forall j :: 0 <= j < i ==> testCsl(parameters, j).Ok?
        invariant runs == SequentialRuns(parameters, testCsl, i)
        invariant reports == if progression then ProgressReports(n)[..i] else []
      {
        var call := testCsl(parameters, i);
        if call.Throws? {
          outcome := Throws(call.exception);
          return;
        }
        runs := runs + [call.value];
        if progression {
          reports := reports + [i as real / parameters.numOfTests as real];
        }
        i := i + 1;
      }
      assert i == n;

      CheckedSumCorrect(GpuTimes(runs));
      outcome := InitializeCollection(runs, parameters, elapsed, CheckedSum(GpuTimes(runs)));
    }

    /** The object initializer that ends `RunTestsInParallel`: the collection
        is built, the session time divided by the thread estimate is stored
        (lowering `BestTime`), then the checked GPU sum divided by the estimate
        (lowering `GpuBestTime`). A zero estimate throws before either setter
        runs; an overflowing sum throws after the first. */
    method FinishParallelRun(parameters: CudaTestParameters, run: ParallelRun)
      returns (outcome: Result<CudaTestResultCollection>)
      requires bestTimes.Valid()
      modifies bestTimes
      ensures bestTimes.Valid()
      ensures var total := LongDivide(run.sessionTime, run.threads);
              && (total.Throws? ==> outcome == Throws(total.exception) && unchanged(bestTimes))
              && (total.Ok? ==>
                    && SessionTimeAssigned(total.value, old(bestTimes.totalTimesAssigned), old(bestTimes.bestTime))
                    && (outcome.Ok? <==> ParallelGpuTime(run).Ok?)
                    && (outcome.Throws? ==>
                          && outcome.exception == ParallelGpuTime(run).exception
                          && GpuTimeUntouched(old(bestTimes.gpuTimesAssigned), old(bestTimes.gpuBestTime)))
                    && (outcome.Ok? ==>
                          && fresh(outcome.value)
                          && Stores(outcome.value, run.runs, parameters, total.value, ParallelGpuTime(run).value,
                                    old(bestTimes.gpuTimesAssigned), old(bestTimes.gpuBestTime))))
    {
      var total := LongDivide(run.sessionTime, run.threads);
      if total.Throws? {
        outcome := Throws(total.exception);
        return;
      }
      outcome := InitializeCollection(run.runs, parameters, total.value, ParallelGpuTime(run));
    }

    /** Runs the implementation the parallelism setting selects, once per
        object: after a completed run, later calls change nothing. A run that
        throws leaves the object uninitialized, with the best-time updates
        made before the exception in place. `elapsed` is the sequential
        session's stopwatch reading; `parallel` is what the concurrent part of
        the parallel implementation produced. `reports` are the progress values
        the call sends to the sink: a sequential first run's, up to the call
        that throws if one does, and none on a later call. */
    method Initialize(testCsl: Battery, elapsed: ElapsedMs,
                      parallel: ParallelRun)
      returns (outcome: Result<()>, reports: seq<real>)
      requires Valid()
      modifies this, bestTimes
      ensures Valid()
      ensures isInitialized == (old(isInitialized) || outcome.Ok?)
      ensures outcome.Throws? ==> results == old(results)
      ensures old(isInitialized) ==> outcome.Ok? && results == old(results) && unchanged(bestTimes) && reports == []
      ensures !old(isInitialized) && testParameters.degreeOfParallelism == DoNotParallelizeTests ==>
                var n := NumberOfRuns(testParameters.numOfTests);
                var k := CallsCompleted(testParameters, testCsl, n);
                && reports == (if progression then ProgressReports(n)[..k] else [])
                && (k < n ==> outcome == Throws(testCsl(testParameters, k).exception) && unchanged(bestTimes))
      ensures !old(isInitialized) && testParameters.degreeOfParallelism == DoNotParallelizeTests &&
              CallsCompleted(testParameters, testCsl, NumberOfRuns(testParameters.numOfTests))
                == NumberOfRuns(testParameters.numOfTests) ==>
                var runs := SequentialRuns(testParameters, testCsl, NumberOfRuns(testParameters.numOfTests));
                && SessionTimeAssigned(elapsed, old(bestTimes.totalTimesAssigned), old(bestTimes.bestTime))
                && (outcome.Ok? <==> CheckedSum(GpuTimes(runs)).Ok?)
                && (outcome.Throws? ==>
                      && outcome.exception == Overflow
                      && GpuTimeUntouched(old(bestTimes.gpuTimesAssigned), old(bestTimes.gpuBestTime)))
                && (outcome.Ok? ==>
                      && fresh(results)
                      && results.count == NumberOfRuns(testParameters.numOfTests)
                      && results.gpuTestTime == Sum(GpuTimes(runs))
                      && Stores(results, runs, testParameters, elapsed, CheckedSum(GpuTimes(runs)).value,
                                old(bestTimes.gpuTimesAssigned), old(bestTimes.gpuBestTime)))
      ensures !old(isInitialized) && testParameters.degreeOfParallelism == DoParallelizeTests ==>
                var total := LongDivide(parallel.sessionTime, parallel.threads);
                && (total.Throws? ==> outcome == Throws(total.exception) && unchanged(bestTimes))
                && (total.Ok? ==>
                      && SessionTimeAssigned(total.value, old(bestTimes.totalTimesAssigned), old(bestTimes.bestTime))
                      && (outcome.Ok? <==> ParallelGpuTime(parallel).Ok?)
                      && (outcome.Throws? ==>
                            && outcome.exception == ParallelGpuTime(parallel).exception
                            && GpuTimeUntouched(old(bestTimes.gpuTimesAssigned), old(bestTimes.gpuBestTime)))
                      && (outcome.Ok? ==>
                            && fresh(results)
                            && Stores(results, parallel.runs, testParameters, total.value, ParallelGpuTime(parallel).value,
                                      old(bestTimes.gpuTimesAssigned), old(bestTimes.gpuBestTime))))
    {
      reports := [];
      if isInitialized {
        return Ok(()), reports;
      }
      var run: Result<CudaTestResultCollection>;
      match cudaTestMethod[testParameters.degreeOfParallelism] {
        case SequentialImplementation =>
          run, reports := RunTestsInSequential(testParameters, testCsl, elapsed);
        case ParallelImplementation =>
          run := FinishParallelRun(testParameters, parallel);
      }
      if run.Throws? {
        return Throws(run.exception), reports;
      }
      results := run.value;
      isInitialized := true;
      outcome := Ok(());
    }

    /** `GpuElapsedMilliseconds => Results.GpuElapsedMilliseconds`: the
        stored collection's GPU time, or a null dereference before the
        battery ran. */
    function GpuElapsedMilliseconds(): (r: Result<Long>)
      reads this, results
      ensures r.Throws? <==> results == null
      ensures r.Throws? ==> r.exception == NullReference
      ensures r.Ok? ==> results != null && r.value == results.gpuTestTime
    {
      if results == null then Throws(NullReference) else Ok(results.gpuTestTime)
    }
  }
}

=== FILE: cuda_test_record.dfy ===
/** One check of a test battery: a name, the tested value as text, whether
    the check passed, the GPU call's error code and the GPU time it took.
    Every property is get-only, so the record is a value. */
module CudaTestRecords {
  import opened CudaTypes

  datatype CudaTestRecord = CudaTestRecord(
    name: string,
    value: string,
    passedTest: bool,
    errorCode: CudaError,
    gpuMetrics: GpuPerformanceMetrics)
  {
    /** Whether the GPU call behind this check reported `Success`. */
    predicate GpuReturnedSuccess() {
      errorCode == Success
    }

    /** The GPU time supplied with the record. */
    function GpuElapsedMilliseconds(): (r: Long)
      ensures r == gpuMetrics.gpuElapsedMilliseconds
    {
      gpuMetrics.gpuElapsedMilliseconds
    }
  }

  /** The factory: the value is rendered once, by `toString` (the value's own
      `ToString`), and everything else is stored as given. */
  function New<T>(name: string, value: T, toString: T -> string, test: bool,
                  errorCode: CudaError, gpuMetrics: GpuPerformanceMetrics): (r: CudaTestRecord)
    ensures r.name == name && r.passedTest == test && r.errorCode == errorCode
    ensures r.value == toString(value)
    ensures r.GpuElapsedMilliseconds() == gpuMetrics.gpuElapsedMilliseconds
    ensures r.GpuReturnedSuccess() <==> errorCode == Success
  {
    CudaTestRecord(name, toString(value), test, errorCode, gpuMetrics)
  }
}

=== FILE: cuda_test_record_collection.dfy ===
/** One run of a test battery: the records it produced, in order, and the GPU
    time the battery reported for the run. */
module CudaTestRecordCollections {
  import opened CudaTypes
  import opened Enumerables
  import opened CudaTestRecords

  /** A record that disproves the run: its own check failed and so did its GPU call. */
  predicate FailedOutright(record: CudaTestRecord) {
    !record.passedTest && !record.GpuReturnedSuccess()
  }

  datatype CudaTestRecordCollection = CudaTestRecordCollection(
    records: seq<CudaTestRecord>,
    gpuMetrics: GpuPerformanceMetrics)
  {
    /** Null hypothesis: the run passed; any record that failed outright refutes it. */
    predicate Passed() {
      !Any(records, FailedOutright)
    }

    /** `Count`: read from the stored list on every call. */
    function Count(): (r: nat)
      ensures r == |records|
    {
      |records|
    }

    /** `this[i]`: the i-th record given at construction. */
    function Item(i: int): (r: Result<CudaTestRecord>)
      ensures r.Ok? <==> 0 <= i < Count()
      ensures r.Ok? ==> r.value == records[i]
    {
      ElementAt(records, i)
    }

    /** The run's GPU time is the one supplied with it, not a sum over its records. */
    function GpuElapsedMilliseconds(): (r: Long)
      ensures r == gpuMetrics.gpuElapsedMilliseconds
    {
      gpuMetrics.gpuElapsedMilliseconds
    }

    method GetEnumerator() returns (yielded: seq<CudaTestRecord>)
      ensures |yielded| == Count()
      ensures forall i :: 0 <= i < |yielded| ==> Item(i) == Ok(yielded[i])
    {
      yielded := Enumerate(records);
    }
  }

  /** A run passes exactly when every record passed its own check or at least
      had its GPU call succeed; in particular a run with no records passes. */
  lemma PassedIffNoOutrightFailure(run: CudaTestRecordCollection)
    ensures run.Passed() <==>
              forall i :: 0 <= i < run.Count() ==> run.records[i].passedTest || run.records[i].GpuReturnedSuccess()
    ensures run.records == [] ==> run.Passed()
  {
    AnyIffExists(run.records, FailedOutright);
  }

  /** A record whose GPU call succeeded never decides the verdict, whatever its
      own check says: inserting it anywhere leaves `Passed` as it was. */
  lemma GpuSuccessNeverFailsRun(before: seq<CudaTestRecord>, record: CudaTestRecord,
                                after: seq<CudaTestRecord>, metrics: GpuPerformanceMetrics)
    requires record.GpuReturnedSuccess()
    ensures CudaTestRecordCollection(before + [record] + after, metrics).Passed()
            == CudaTestRecordCollection(before + after, metrics).Passed()
  {
    var with := before + [record] + after;
    var without := before + after;
    AnyIffExists(with, FailedOutright);
    AnyIffExists(without, FailedOutright);
    if Any(with, FailedOutright) {
      var i :| 0 <= i < |with| && FailedOutright(with[i]);
      if i < |before| {
        assert without[i] == with[i];
      } else {
        assert i > |before|;
        assert without[i - 1] == with[i];
      }
    }
    if Any(without, FailedOutright) {
      var i :| 0 <= i < |without| && FailedOutright(without[i]);
      if i < |before| {
        assert with[i] == without[i];
      } else {
        assert with[i + 1] == without[i];
      }
    }
  }

  /** A single record that fails both its check and its GPU call fails the
      whole run, wherever it stands. */
  lemma OutrightFailureFailsRun(run: CudaTestRecordCollection, i: int)
    requires 0 <= i < run.Count()
    requires !run.records[i].passedTest && !run.records[i].GpuReturnedSuccess()
    ensures !run.Passed()
  {
    PassedIffNoOutrightFailure(run);
  }

  /** A run's GPU time depends on its metrics alone: two runs with the same
      metrics report the same time, whatever records they hold. */
  lemma GpuTimeIgnoresRecords(first: seq<CudaTestRecord>, second: seq<CudaTestRecord>, metrics: GpuPerformanceMetrics)
    ensures CudaTestRecordCollection(first, metrics).GpuElapsedMilliseconds()
            == CudaTestRecordCollection(second, metrics).GpuElapsedMilliseconds()
            == metrics.gpuElapsedMilliseconds
  {
  }
}

=== FILE: cuda_test_result.dfy ===
/** The wrappers that turn one library call into a test record: the random
    number check (too many adjacent repeats mean a broken generator) and the
    statistics check (a caller-supplied predicate on the call's result). */
module CudaTestResults {
  import opened CudaTypes
  import opened CudaTestRecords

  /** The literal `0.05f` widened to double: exactly 13421773 / 2^28, a hair
      above 1/20. */
  const UniquenessThreshold: real := 13421773.0 / 268435456.0

  /** Adjacent equal pairs that start before index `k`. */
  function DuplicatesBelow<T(==)>(s: seq<T>, k: nat): nat
    requires k < |s| || k == 0
  {
    if k == 0 then 0 else DuplicatesBelow(s, k - 1) + (if s[k - 1] == s[k] then 1 else 0)
  }

  /** The duplicate count of the random check: adjacent equal pairs over
      the whole array (indices `0 .. |s| - 2`). */
  function AdjacentDuplicates<T(==)>(s: seq<T>): nat {
    if |s| == 0 then 0 else DuplicatesBelow(s, |s| - 1)
  }

  /** Whether index `i` starts an adjacent equal pair. */
  ghost predicate PairRepeatsAt<T>(s: seq<T>, i: nat)
    requires i + 1 < |s|
  {
    s[i] == s[i + 1]
  }

  /** The indices that start an adjacent equal pair below `k`. */
  ghost function DuplicateIndices<T>(s: seq<T>, k: nat): set<nat>
    requires k < |s| || k == 0
  {
    set i: nat | i < k && PairRepeatsAt(s, i)
  }

  /** The count is the number of indices `i` with `s[i] == s[i + 1]`, and
      never more than `k`. */
  lemma {:induction false} DuplicatesBelowCounts<T>(s: seq<T>, k: nat)
    requires k < |s| || k == 0
    ensures DuplicatesBelow(s, k) == |DuplicateIndices(s, k)|
    ensures DuplicatesBelow(s, k) <= k
  {
    if k == 0 {
      assert DuplicateIndices(s, k) == {};
    } else {
      DuplicatesBelowCounts(s, k - 1);
      var here: set<nat> := if s[k - 1] == s[k] then {k - 1} else {};
      assert DuplicateIndices(s, k) == DuplicateIndices(s, k - 1) + here;
      assert DuplicateIndices(s, k - 1) !! here;
    }
  }

  /** The bound the source's comment relies on: at most `|s| - 1` duplicates
      (none for fewer than two elements). */
  lemma AdjacentDuplicatesBound<T>(s: seq<T>)
    ensures |s| <= 1 ==> AdjacentDuplicates(s) == 0
    ensures |s| >= 1 ==> AdjacentDuplicates(s) <= |s| - 1
    ensures |s| >= 1 ==> AdjacentDuplicates(s) == |DuplicateIndices(s, |s| - 1)|
  {
    if |s| >= 1 {
      DuplicatesBelowCounts(s, |s| - 1);
    }
  }

  /** An array of one repeated value has the most duplicates possible. */
  lemma {:induction false} ConstantDuplicates<T>(s: seq<T>, k: nat)
    requires k < |s|
    requires forall i :: 0 <= i < |s| ==> s[i] == s[0]
    ensures DuplicatesBelow(s, k) == k
  {
    if k > 0 {
      ConstantDuplicates(s, k - 1);
    }
  }

  /** `(double)duplicates / length`: 0.0 / 0 is NaN. */
  function Uniqueness(duplicates: nat, length: nat): Double {
    if length == 0 then NaN else Finite(duplicates as real / length as real)
  }

  /** The random check's verdict: `uniqueness < 0.05f`. */
  predicate UniquenessPasses<T(==)>(s: seq<T>) {
    DoubleLess(Uniqueness(AdjacentDuplicates(s), |s|), UniquenessThreshold)
  }

  /** The verdict in integers: an empty array never passes (NaN compares
      false), and a non-empty one passes exactly when its duplicates are
      below the threshold fraction of its length. At most 5% passes. */
  lemma UniquenessPassesIff<T>(s: seq<T>)
    ensures UniquenessPasses(s) <==> |s| > 0 && AdjacentDuplicates(s) * 268435456 < 13421773 * |s|
    ensures |s| == 0 ==> !UniquenessPasses(s)
    ensures |s| > 0 && 20 * AdjacentDuplicates(s) <= |s| ==> UniquenessPasses(s)
  {
    if |s| > 0 {
      VerdictInIntegers(AdjacentDuplicates(s), |s|);
      if 20 * AdjacentDuplicates(s) <= |s| {
        FivePercentPasses(AdjacentDuplicates(s), |s|);
      }
    }
  }

  /** `(double)duplicates / length < 0.05f` without division. */
  lemma VerdictInIntegers(dups: nat, len: nat)
    requires len > 0
    ensures DoubleLess(Uniqueness(dups, len), UniquenessThreshold) <==> dups * 268435456 < 13421773 * len
  {
    var d, n := dups as real, len as real;
    var u := d / n;
    assert Uniqueness(dups, len) == Finite(u);
    assert u * n == d;
    ScaledLess(u, UniquenessThreshold, n * 268435456.0);
    assert u * (n * 268435456.0) == d * 268435456.0;
    assert UniquenessThreshold * (n * 268435456.0) == 13421773.0 * n;
    assert (dups * 268435456) as real == d * 268435456.0;
    assert (13421773 * len) as real == 13421773.0 * n;
  }

  /** Since 20 * 13421773 > 2^28, a twentieth or less is below the threshold. */
  lemma FivePercentPasses(dups: nat, len: nat)
    requires len > 0 && 20 * dups <= len
    ensures dups * 268435456 < 13421773 * len
  {
    assert dups * 268435456 + dups * 4 == 13421773 * (20 * dups);
    assert 13421773 * (20 * dups) <= 13421773 * len;
  }

  lemma ScaledLess(x: real, y: real, n: real)
    requires n > 0.0
    ensures x < y <==> x * n < y * n
  {
    assert y * n - x * n == (y - x) * n;
  }

  /** A generator stuck on one value fails the check once it returned two or
      more numbers. */
  lemma {:induction false} ConstantResultFails<T>(s: seq<T>)
    requires |s| >= 2
    requires forall i :: 0 <= i < |s| ==> s[i] == s[0]
    ensures !UniquenessPasses(s)
  {
    ConstantDuplicates(s, |s| - 1);
    UniquenessPassesIff(s);
  }

  /** A generator that never repeats a value back to back passes. */
  lemma {:induction false} NoRepeatsPasses<T>(s: seq<T>)
    requires |s| > 0
    requires forall i :: 0 <= i < |s| - 1 ==> s[i] != s[i + 1]
    ensures UniquenessPasses(s)
  {
    AdjacentDuplicatesBound(s);
    assert DuplicateIndices(s, |s| - 1) == {};
    UniquenessPassesIff(s);
  }

  /** `CudaTestResultCuRand`: one random-number call, its result, its record
      and its GPU time. */
  datatype CudaTestResultCuRand<T> = CudaTestResultCuRand(
    error: CudaError,
    result: seq<T>,
    testRecord: CudaTestRecord,
    gpuElapsedMilliseconds: Long)

  /** The constructor: calls `curand(range)` once (timed at `elapsed`), counts
      adjacent duplicates pair by pair, and records the verdict. */
  method NewCudaTestResultCuRand<T(==)>(name: string, curand: Int32 -> CudaResult<seq<T>>, range: Int32,
                                        elapsed: ElapsedMs, doubleToString: Double -> string)
    returns (r: CudaTestResultCuRand<T>)
    ensures r.error == curand(range).error && r.result == curand(range).result
    ensures r.gpuElapsedMilliseconds == elapsed
    ensures r.testRecord.name == name + "<5% duplicates"
    ensures r.testRecord.value == doubleToString(Uniqueness(AdjacentDuplicates(r.result), |r.result|))
    ensures r.testRecord.passedTest == UniquenessPasses(r.result)
    ensures r.testRecord.errorCode == r.error
    ensures r.testRecord.GpuElapsedMilliseconds() == elapsed
  {
    var result := curand(range);
    var data := result.result;
    var duplicates := 0;
    var i := 0;
    while i < |data| - 1
      invariant i == 0 || i <= |data| - 1
      invariant duplicates == DuplicatesBelow(data, i)
    {
      if data[i] == data[i + 1] {
        duplicates := duplicates + 1;
      }
      i := i + 1;
    }
    var uniqueness := Uniqueness(duplicates, |data|);
    var record := New(name + "<5% duplicates", uniqueness, doubleToString,
                      DoubleLess(uniqueness, UniquenessThreshold), result.error,
                      GpuPerformanceMetrics(elapsed));
    r := CudaTestResultCuRand(result.error, data, record, elapsed);
  }

  /** `CudaTestResultcuStats`: one statistics call, its result, its record and
      its GPU time. */
  datatype CudaTestResultcuStats<R> = CudaTestResultcuStats(
    error: CudaError,
    result: R,
    testRecord: CudaTestRecord,
    gpuElapsedMilliseconds: Long)

  /** The one-array constructor: calls `testMethod(data)` once (timed at
      `elapsed`) and judges its result with `successTest`. */
  function NewCudaTestResultcuStats<T, R>(name: string, successTest: R -> bool, testMethod: seq<T> -> CudaResult<R>,
                                          data: seq<T>, elapsed: ElapsedMs, toString: R -> string)
    : (r: CudaTestResultcuStats<R>)
    ensures r.error == testMethod(data).error && r.result == testMethod(data).result
    ensures r.gpuElapsedMilliseconds == elapsed
    ensures r.testRecord.name == name
    ensures r.testRecord.passedTest <==> successTest(r.result)
    ensures r.testRecord.errorCode == r.error && r.testRecord.value == toString(r.result)
    ensures r.testRecord.GpuElapsedMilliseconds() == elapsed
  {
    var result := testMethod(data);
    CudaTestResultcuStats(
      result.error, result.result,
      New(name, result.result, toString, successTest(result.result), result.error, GpuPerformanceMetrics(elapsed)),
      elapsed)
  }

  /** The two-array constructor: calls `testMethod(data1, data2)` once. */
  function NewCudaTestResultcuStatsPair<T, R>(name: string, successTest: R -> bool,
                                              testMethod: (seq<T>, seq<T>) -> CudaResult<R>,
                                              data1: seq<T>, data2: seq<T>, elapsed: ElapsedMs, toString: R -> string)
    : (r: CudaTestResultcuStats<R>)
    ensures r.error == testMethod(data1, data2).error && r.result == testMethod(data1, data2).result
    ensures r.gpuElapsedMilliseconds == elapsed
    ensures r.testRecord.name == name
    ensures r.testRecord.passedTest <==> successTest(r.result)
    ensures r.testRecord.errorCode == r.error && r.testRecord.value == toString(r.result)
    ensures r.testRecord.GpuElapsedMilliseconds() == elapsed
  {
    var result := testMethod(data1, data2);
    CudaTestResultcuStats(
      result.error, result.result,
      New(name, result.result, toString, successTest(result.result), result.error, GpuPerformanceMetrics(elapsed)),
      elapsed)
  }

  /** The two constructors agree: the pair form is the one-array form over
      the call with its second argument fixed. */
  lemma CuStatsPairIsSingle<T, R>(name: string, successTest: R -> bool,
                                  testMethod: (seq<T>, seq<T>) -> CudaResult<R>,
                                  data1: seq<T>, data2: seq<T>, elapsed: ElapsedMs, toString: R -> string)
    ensures NewCudaTestResultcuStatsPair(name, successTest, testMethod, data1, data2, elapsed, toString)
            == NewCudaTestResultcuStats(name, successTest, d => testMethod(d, data2), data1, elapsed, toString)
  {
  }
}

=== FILE: cuda_test_result_collection.dfy ===
/** Many runs of a battery: the runs split into passed and failed with their
    counts, the session and GPU times of the whole series, and the best times
    ever recorded, which every collection in the process shares. */
module CudaTestResultCollections {
  import opened CudaTypes
  import opened Enumerables
  import opened CudaTestRecordCollections

  /** What a best-time field holds once the values `s` were assigned, in order,
      to the matching elapsed-time setter: `long.MaxValue`, lowered by each
      value below the current best. */
  function RunningMin(s: seq<Long>): Long {
    if s == [] then LongMax else Min(RunningMin(s[..|s| - 1]), s[|s| - 1])
  }

  /** The best time is the true minimum: at or below every assigned value and
      `long.MaxValue`, and equal to one of them. */
  lemma {:induction false} RunningMinIsMinimum(s: seq<Long>)
    ensures RunningMin(s) <= LongMax
    ensures forall i :: 0 <= i < |s| ==> RunningMin(s) <= s[i]
    ensures RunningMin(s) == LongMax || exists i :: 0 <= i < |s| && RunningMin(s) == s[i]
  {
    if s != [] {
      var prefix := s[..|s| - 1];
      RunningMinIsMinimum(prefix);
      assert forall i :: 0 <= i < |prefix| ==> prefix[i] == s[i];
      if RunningMin(s) != LongMax && RunningMin(s) != s[|s| - 1] {
        var i :| 0 <= i < |prefix| && RunningMin(prefix) == prefix[i];
        assert RunningMin(s) == s[i];
      }
    }
  }

  /** Later assignments can only lower a best time. */
  lemma {:induction false} RunningMinNeverIncreases(s: seq<Long>, t: seq<Long>)
    ensures RunningMin(s + t) <= RunningMin(s)
  {
    if t == [] {
      assert s + t == s;
    } else {
      var t' := t[..|t| - 1];
      assert (s + t)[..|s + t| - 1] == s + t';
      RunningMinNeverIncreases(s, t');
    }
  }

  /** The process-wide best times (the static `BestTime` and `GpuBestTime`),
      one object shared by every result collection. The ghost histories list
      every value ever assigned to the matching setter, on any collection. */
  class BestTimes {
    var bestTime: Long
    var gpuBestTime: Long
    ghost var totalTimesAssigned: seq<Long>
    ghost var gpuTimesAssigned: seq<Long>

    ghost predicate Valid()
      reads this
    {
      && bestTime == RunningMin(totalTimesAssigned)
      && gpuBestTime == RunningMin(gpuTimesAssigned)
    }

    /** Process start: both best times are `long.MaxValue`. */
    constructor ()
      ensures Valid()
      ensures bestTime == LongMax && gpuBestTime == LongMax
      ensures totalTimesAssigned == [] && gpuTimesAssigned == []
    {
      bestTime, gpuBestTime := LongMax, LongMax;
      totalTimesAssigned, gpuTimesAssigned := [], [];
    }
  }

  /** `result.Passed == true` and `result.Passed == false`, the two queries. */
  predicate RunPassed(run: CudaTestRecordCollection) {
    run.Passed()
  }

  predicate RunFailed(run: CudaTestRecordCollection) {
    !run.Passed()
  }

  /** The verdict over a series, stated without the queries: all runs passed
      exactly when no run failed, and the two query results split the runs. */
  lemma {:induction false} PartitionOfRuns(results: seq<CudaTestRecordCollection>)
    ensures |Where(results, RunPassed)| + |Where(results, RunFailed)| == |results|
    ensures forall run :: run in Where(results, RunPassed) <==> run in results && run.Passed()
    ensures forall run :: run in Where(results, RunFailed) <==> run in results && !run.Passed()
    ensures |Where(results, RunFailed)| == 0 <==> forall i :: 0 <= i < |results| ==> results[i].Passed()
  {
    WhereComplement(results, RunPassed, RunFailed);
    forall run
      ensures run in Where(results, RunPassed) <==> run in results && run.Passed()
      ensures run in Where(results, RunFailed) <==> run in results && !run.Passed()
    {
      WhereMembers(results, RunPassed, run);
      WhereMembers(results, RunFailed, run);
    }
    WhereEmptyIffNone(results, RunFailed);
  }

  /** Splitting a series and splitting its parts agree: both queries keep
      the runs in the order they were supplied. */
  lemma PartitionKeepsOrder(first: seq<CudaTestRecordCollection>, second: seq<CudaTestRecordCollection>)
    ensures Where(first + second, RunPassed) == Where(first, RunPassed) + Where(second, RunPassed)
    ensures Where(first + second, RunFailed) == Where(first, RunFailed) + Where(second, RunFailed)
  {
    WhereAppend(first, second, RunPassed);
    WhereAppend(first, second, RunFailed);
  }

  class CudaTestResultCollection {
    const testResults: seq<CudaTestRecordCollection>
    const testParametersUsed: CudaTestParameters
    const allTestsPassed: bool
    const passedTests: seq<CudaTestRecordCollection>
    const failedTests: seq<CudaTestRecordCollection>
    const numOfPasses: nat
    const numOfFails: nat
    const count: nat
    /** The shared static best times. */
    const best: BestTimes

    var testTime: Long
    var gpuTestTime: Long

    /** This collection was built from `runs` and `parameters` and shares the
        best times `shared`: its counts split the runs, and it reports "all
        passed" exactly when every run passed. */
    ghost predicate Built(runs: seq<CudaTestRecordCollection>, parameters: CudaTestParameters, shared: BestTimes) {
      && testResults == runs && testParametersUsed == parameters && best == shared
      && count == |runs| && numOfPasses + numOfFails == count
      && (allTestsPassed <==> forall k :: 0 <= k < |runs| ==> runs[k].Passed())
    }

    /** Runs both queries and counts once, at construction. */
    constructor (results: seq<CudaTestRecordCollection>, parameters: CudaTestParameters, best: BestTimes)
      ensures testResults == results && testParametersUsed == parameters && this.best == best
      ensures passedTests == Where(results, RunPassed) && failedTests == Where(results, RunFailed)
      ensures numOfPasses == |passedTests| && numOfFails == |failedTests|
      ensures count == |results| && numOfPasses + numOfFails == count
      ensures forall run :: run in passedTests <==> run in results && run.Passed()
      ensures forall run :: run in failedTests <==> run in results && !run.Passed()
      ensures allTestsPassed <==> numOfFails == 0
      ensures allTestsPassed <==> forall i :: 0 <= i < |results| ==> results[i].Passed()
      ensures testTime == 0 && gpuTestTime == 0
      ensures Built(results, parameters, best)
    {
      testResults := results;
      testParametersUsed := parameters;
      this.best := best;
      var passed := Where(results, RunPassed);
      var failed := Where(results, RunFailed);
      passedTests, numOfPasses := passed, |passed|;
      failedTests, numOfFails := failed, |failed|;
      allTestsPassed := !(|failed| > 0);
      count := |results|;
      testTime, gpuTestTime := 0, 0;
      PartitionOfRuns(results);
    }

    /** The `TotalElapsedMilliseconds` setter: stores the time and lowers the
        shared `BestTime` when the new time beats it. */
    method SetTotalElapsedMilliseconds(value: Long)
      requires best.Valid()
      modifies this`testTime, best`bestTime, best`totalTimesAssigned
      ensures testTime == value
      ensures best.bestTime == Min(old(best.bestTime), value)
      ensures best.totalTimesAssigned == old(best.totalTimesAssigned) + [value]
      ensures best.Valid()
    {
      if best.bestTime > value {
        best.bestTime := value;
      }
      best.totalTimesAssigned := best.totalTimesAssigned + [value];
      assert best.totalTimesAssigned[..|old(best.totalTimesAssigned)|] == old(best.totalTimesAssigned);
      testTime := value;
    }

    /** The `GpuElapsedMilliseconds` setter: the same rule against `GpuBestTime`. */
    method SetGpuElapsedMilliseconds(value: Long)
      requires best.Valid()
      modifies this`gpuTestTime, best`gpuBestTime, best`gpuTimesAssigned
      ensures gpuTestTime == value
      ensures best.gpuBestTime == Min(old(best.gpuBestTime), value)
      ensures best.gpuTimesAssigned == old(best.gpuTimesAssigned) + [value]
      ensures best.Valid()
    {
      if best.gpuBestTime > value {
        best.gpuBestTime := value;
      }
      best.gpuTimesAssigned := best.gpuTimesAssigned + [value];
      assert best.gpuTimesAssigned[..|old(best.gpuTimesAssigned)|] == old(best.gpuTimesAssigned);
      gpuTestTime := value;
    }

    /** `this[i]`: the i-th run supplied at construction. */
    function Item(i: int): (r: Result<CudaTestRecordCollection>)
      ensures r.Ok? <==> 0 <= i < |testResults|
      ensures r.Ok? ==> r.value == testResults[i]
    {
      ElementAt(testResults, i)
    }

    method GetEnumerator() returns (yielded: seq<CudaTestRecordCollection>)
      ensures |yielded| == |testResults|
      ensures forall i :: 0 <= i < |yielded| ==> Item(i) == Ok(yielded[i])
    {
      yielded := Enumerate(testResults);
    }
  }
}

=== FILE: cuda_types.dfy ===
/** Types shared by the whole harness: the fixed-width integers it stores
    counts and times in, the error codes and call results it receives from the
    CudaSharper library, the parameters of a test session, and the exceptions
    the .NET runtime raises on the paths this model follows. */
module CudaTypes {

  const LongMin: int := -0x8000_0000_0000_0000
  /** `long.MaxValue`, the initial value of both process-wide best times. */
  const LongMax: int := 0x7FFF_FFFF_FFFF_FFFF

  /** A C# `long`. */
  type Long = x: int | -0x8000_0000_0000_0000 <= x <= 0x7FFF_FFFF_FFFF_FFFF

  /** A C# `int`. */
  type Int32 = x: int | -0x8000_0000 <= x <= 0x7FFF_FFFF

  /** What `Stopwatch.ElapsedMilliseconds` can return: a non-negative long. */
  type ElapsedMs = x: int | 0 <= x <= 0x7FFF_FFFF_FFFF_FFFF

  predicate InLongRange(x: int) {
    LongMin <= x <= LongMax
  }

  function Min(a: int, b: int): int {
    if a <= b then a else b
  }

  function Abs(x: int): nat {
    if x < 0 then -x else x
  }

  /** A C# `double` as far as the harness inspects one: NaN, or a finite value. */
  datatype Double = NaN | Finite(value: real)

  /** `x < y` on doubles: every comparison with NaN is false. */
  predicate DoubleLess(x: Double, y: real) {
    x.Finite? && x.value < y
  }

  /** The library's error code; only `Success` is distinguished by the harness. */
  datatype CudaError = Success | Failure(code: int)

  /** What one library call returns: its error code and its payload. */
  datatype CudaResult<T> = CudaResult(error: CudaError, result: T)

  datatype CudaTestParallelism = DoNotParallelizeTests | DoParallelizeTests

  /** The settings of one test session. */
  datatype CudaTestParameters = CudaTestParameters(
    numOfTests: Int32,
    range: Int32,
    deviceId: Int32,
    degreeOfParallelism: CudaTestParallelism)

  /** A GPU time carried alongside a result. */
  datatype GpuPerformanceMetrics = GpuPerformanceMetrics(gpuElapsedMilliseconds: Long)

  /** The exceptions the modelled code can raise. */
  datatype Exception = ArgumentOutOfRange | Overflow | NullReference | DivideByZero | IndexOutOfRange

  /** A value, or the exception thrown instead of producing it. */
  datatype Result<T> = Ok(value: T) | Throws(exception: Exception)

  /** `a / b` on C# longs: a zero divisor throws `DivideByZeroException`,
      `long.MinValue / -1` throws `OverflowException`, and otherwise the
      quotient is rounded toward zero, so the remainder is smaller than the
      divisor and takes the sign of the dividend. */
  function LongDivide(a: Long, b: Long): (r: Result<Long>)
    ensures r.Throws? <==> b == 0 || (a == LongMin && b == -1)
    ensures r.Throws? ==> r.exception == (if b == 0 then DivideByZero else Overflow)
    ensures r.Ok? ==> var rem := a - r.value * b;
                      Abs(rem) < Abs(b) && (rem == 0 || (rem < 0 <==> a < 0))
  {
    if b == 0 then Throws(DivideByZero)
    else if a == LongMin && b == -1 then Throws(Overflow)
    else
      TruncatedQuotientFits(a, b);
      Ok(TruncatedQuotient(a, b))
  }

  /** The quotient of `a / b` rounded toward zero. */
  function TruncatedQuotient(a: int, b: int): int
    requires b != 0
  {
    if (a < 0) == (b < 0) then Abs(a) / Abs(b) else -(Abs(a) / Abs(b))
  }

  /** Outside `long.MinValue / -1`, the truncated quotient is a long and
      leaves a remainder smaller than the divisor, with the dividend's sign. */
  lemma TruncatedQuotientFits(a: int, b: int)
    requires LongMin <= a <= LongMax && LongMin <= b <= LongMax
    requires b != 0 && !(a == LongMin && b == -1)
    ensures var q := TruncatedQuotient(a, b); var rem := a - q * b;
            && LongMin <= q <= LongMax
            && Abs(rem) < Abs(b) && (rem == 0 || (rem < 0 <==> a < 0))
  {
  }
}

=== FILE: enumerables.dfy ===
/** The `System.Linq` operators and the list access the harness relies on:
    `Any`, `Where`, `Count`, checked `Sum` over longs, the `IList` indexer and
    the `foreach`/`yield return` enumerator both collections expose. */
module Enumerables {
  import opened CudaTypes

  /** `Any`: scans from the front and stops at the first element satisfying `p`. */
  function Any<T>(s: seq<T>, p: T -> bool): bool {
    if s == [] then false else p(s[0]) || Any(s[1..], p)
  }

  lemma {:induction false} AnyIffExists<T>(s: seq<T>, p: T -> bool)
    ensures Any(s, p) <==> exists i :: 0 <= i < |s| && p(s[i])
  {
    if s != [] {
      AnyIffExists(s[1..], p);
      assert forall i :: 0 < i < |s| ==> s[i] == s[1..][i - 1];
      if !p(s[0]) && !Any(s[1..], p) {
        forall i | 0 <= i < |s| ensures !p(s[i]) {
          if i > 0 {
            assert s[i] == s[1..][i - 1];
          }
        }
      }
    }
  }

  /** `Where`: the elements satisfying `p`, in their original order. */
  function Where<T>(s: seq<T>, p: T -> bool): seq<T> {
    if s == [] then [] else (if p(s[0]) then [s[0]] else []) + Where(s[1..], p)
  }

  lemma {:induction false} WhereMembers<T>(s: seq<T>, p: T -> bool, x: T)
    ensures x in Where(s, p) <==> x in s && p(x)
  {
    if s != [] {
      WhereMembers(s[1..], p, x);
      assert s == [s[0]] + s[1..];
    }
  }

  /** Filtering distributes over concatenation, so `Where` keeps relative order. */
  lemma {:induction false} WhereAppend<T>(s: seq<T>, t: seq<T>, p: T -> bool)
    ensures Where(s + t, p) == Where(s, p) + Where(t, p)
  {
    if s == [] {
      assert s + t == t;
    } else {
      var head := if p(s[0]) then [s[0]] else [];
      assert (s + t)[0] == s[0];
      assert (s + t)[1..] == s[1..] + t;
      WhereAppend(s[1..], t, p);
      calc {
        Where(s + t, p);
        head + Where(s[1..] + t, p);
        head + (Where(s[1..], p) + Where(t, p));
        (head + Where(s[1..], p)) + Where(t, p);
      }
    }
  }

  /** Filtering with a predicate and with its negation splits the input in two. */
  lemma {:induction false} WhereComplement<T>(s: seq<T>, p: T -> bool, q: T -> bool)
    requires forall x :: q(x) == !p(x)
    ensures |Where(s, p)| + |Where(s, q)| == |s|
  {
    if s != [] {
      WhereComplement(s[1..], p, q);
    }
  }

  lemma {:induction false} WhereEmptyIffNone<T>(s: seq<T>, p: T -> bool)
    ensures Where(s, p) == [] <==> forall i :: 0 <= i < |s| ==> !p(s[i])
  {
    if s != [] {
      WhereEmptyIffNone(s[1..], p);
      assert forall i :: 0 < i < |s| ==> s[i] == s[1..][i - 1];
      if !p(s[0]) && Where(s[1..], p) == [] {
        forall i | 0 <= i < |s| ensures !p(s[i]) {
          if i > 0 {
            assert s[i] == s[1..][i - 1];
          }
        }
      }
    }
  }

  /** The mathematical sum, the reference for the checked `Sum` below. */
  function Sum(s: seq<int>): int {
    if s == [] then 0 else s[0] + Sum(s[1..])
  }

  /** `Sum` over longs: adds from the front in checked arithmetic and throws
      `OverflowException` as soon as a partial sum leaves the long range. */
  function CheckedSum(s: seq<Long>): Result<Long> {
    CheckedSumFrom(0, s)
  }

  function CheckedSumFrom(acc: Long, s: seq<Long>): Result<Long>
    decreases |s|
  {
    if s == [] then Ok(acc)
    else if !InLongRange(acc + s[0]) then Throws(Overflow)
    else CheckedSumFrom(acc + s[0], s[1..])
  }

  lemma {:induction false} CheckedSumFromCorrect(acc: Long, s: seq<Long>)
    ensures CheckedSumFrom(acc, s).Ok? ==> CheckedSumFrom(acc, s).value == acc + Sum(s)
    ensures CheckedSumFrom(acc, s).Throws? ==> CheckedSumFrom(acc, s).exception == Overflow
    ensures (forall i :: 0 <= i < |s| ==> s[i] >= 0) && acc >= 0 ==>
              (CheckedSumFrom(acc, s).Ok? <==> acc + Sum(s) <= LongMax)
    decreases |s|
  {
    if s != [] {
      if InLongRange(acc + s[0]) {
        assert forall i :: 0 <= i < |s| - 1 ==> s[1..][i] == s[i + 1];
        CheckedSumFromCorrect(acc + s[0], s[1..]);
      } else if (forall i :: 0 <= i < |s| ==> s[i] >= 0) && acc >= 0 {
        SumOfNonNegatives(s[1..]);
      }
    }
  }

  lemma {:induction false} SumOfNonNegatives(s: seq<int>)
    requires forall i :: 0 <= i < |s| ==> s[i] >= 0
    ensures Sum(s) >= 0
  {
    if s != [] {
      assert forall i :: 0 <= i < |s| - 1 ==> s[1..][i] == s[i + 1];
      SumOfNonNegatives(s[1..]);
    }
  }

  /** A checked sum that succeeds is the mathematical sum; over non-negative
      values (elapsed times) it throws exactly when that sum exceeds `long.MaxValue`. */
  lemma CheckedSumCorrect(s: seq<Long>)
    ensures CheckedSum(s).Ok? ==> CheckedSum(s).value == Sum(s)
    ensures CheckedSum(s).Throws? ==> CheckedSum(s).exception == Overflow
    ensures (forall i :: 0 <= i < |s| ==> s[i] >= 0) ==> (CheckedSum(s).Ok? <==> Sum(s) <= LongMax)
  {
    CheckedSumFromCorrect(0, s);
  }

  /** The `IList` indexer: an index outside `[0, Count)` throws. */
  function ElementAt<T>(s: seq<T>, i: int): (r: Result<T>)
    ensures r.Ok? <==> 0 <= i < |s|
    ensures r.Ok? ==> r.value == s[i]
    ensures r.Throws? ==> r.exception == ArgumentOutOfRange
  {
    if 0 <= i < |s| then Ok(s[i]) else Throws(ArgumentOutOfRange)
  }

  /** A `foreach ... yield return` enumerator over a stored list: the elements
      it yields, one per step, in list order. */
  method Enumerate<T>(s: seq<T>) returns (yielded: seq<T>)
    ensures yielded == s
  {
    yielded := [];
    var i := 0;
    while i < |s|
      invariant 0 <= i <= |s|
      invariant yielded == s[..i]
    {
      yielded := yielded + [s[i]];
      i := i + 1;
    }
  }
}
